=== FILE: README.md ===
# Sprite field editor: options, bitmap state and preview

This project models the logic of `FieldSpriteEditor`, the block-editor field that holds a
pixel sprite (a grid of palette indices) as image-literal text. The field shows a 32 by 32
thumbnail of the sprite inside its block. Three pieces of it are modelled:

- **Option normalisation** (`parseFieldOptions` and its `withDefault` helper). Loosely typed
  string options become `{initColor, initWidth, initHeight, filter?}`. Later sources win:
  - the built-in defaults `1`, `16`, `16`;
  - then the first well-formed `w,h` entry of the legacy `sizes` list;
  - then the explicit `initColor`, `initWidth` and `initHeight` fields.

  JavaScript's `parseInt`, `split` and `join` are modelled as their own small functions.
- **The bitmap state** of a field (`doValueUpdate_`, `parseBitmap`, the editor's commit callback,
  the constructor). Text assigned from outside replaces the bitmap only when it decodes to a
  bitmap with non-zero width and height. A null value changes nothing. A result committed by
  the full editor replaces the bitmap with no such check. The image-literal codec belongs to
  another package. It is the value `Codec`, a pair of functions, and its round-trip law is the
  predicate `Bitmaps.Lawful`, assumed where it is needed.
- **The preview geometry** (`renderPreview`). The sprite is scaled by one cell size,
  `min(32/w, 32/h)`, and centred with floored offsets. Cells are then painted column by
  column. The model returns the list of `fillRect` calls with the style assigned before each,
  in exact rational arithmetic. There is no canvas.

The modules follow those pieces:

- `Wrappers`: `Option`.
- `JsString`: `split` and `join`.
- `JsParseInt`: ECMAScript `parseInt` without a radix, and the decimal printer whose output `ParseIntRoundTrip` proves `parseInt` reads back.
- `FieldOptions`: `parseFieldOptions`.
- `Bitmaps`: `Bitmap`, `Blank` and the codec.
- `SpriteField`: the field's state transitions.
- `Preview`: layout, fills and the loop method `RenderPreview`.

The global palette and the target's screen size are explicit parameters.

Behaviour of the code worth noting:

- `doValueUpdate_` redraws the preview after every non-null assignment, even when the gate
  keeps the old bitmap. `SpriteField.DoValueUpdate` reports `redrawn` for every non-null value.
- The editor commit stores `imageLiteralToBitmap(result)` as it is, so a failed decoding leaves
  the field with no bitmap. `SpriteField.CommitEditorResult` stores the `Option` unchanged.
- If, as assumed, Blockly's base constructor hands the initial text to `doValueUpdate_`, the
  constructor tries to decode any non-null initial text, including the empty string. It is not
  limited to non-empty text.
- The sizes are not forced to be positive. `withDefault` accepts any integer, and a negative
  `sizes` entry is kept when the target declares no screen size.
- `withDefault` uses JavaScript's `parseInt`:
  - it ignores trailing characters (`"42px"` reads as 42);
  - it reads a `0x` prefix as base 16 (`"0x1A"` reads as 26).
- The loops are column-major. An index past the end of the palette assigns `undefined` as the
  fill style. A canvas ignores that assignment, so in that case the cell reuses the style of the
  cell drawn before it, and the order of drawing matters.

## Model

| member | source | states |
|---|---|---|
| JsString.Split | pxtblocks/fields/field_sprite.ts:223-226 | `split` on a one-character separator: at least one piece, and no piece contains the separator |
| JsString.JoinSplit | pxtblocks/fields/field_sprite.ts:223-226 | joining the pieces of `split` with the same separator gives back the original string |
| JsString.SplitJoin | pxtblocks/fields/field_sprite.ts:223-226 | splitting a join of separator-free pieces gives back exactly those pieces |
| JsString.SplitCount | pxtblocks/fields/field_sprite.ts:226-227 | `split` yields one piece more than there are separators, so an entry has two parts exactly when it holds one comma |
| JsParseInt.ParseInt | pxtblocks/fields/field_sprite.ts:231-232 | a number is read only when a digit or a sign follows the leading white space |
| JsParseInt.ParseIntRoundTrip | pxtblocks/fields/field_sprite.ts:231-232 | `parseInt` reads back every integer printed in decimal, negative ones included |
| JsParseInt.LeadingWhiteSpaceIgnored | pxtblocks/fields/field_sprite.ts:231-232 | white space before the number never changes what `parseInt` reads |
| JsParseInt.ParseIntDropsSuffix | pxtblocks/fields/field_sprite.ts:231-232 | for every run of decimal digits followed by a non-digit (other than a lone `0` followed by `x` or `X`), `parseInt` reads the digits and drops the rest |
| JsParseInt.ParseIntSuffixExample | pxtblocks/fields/field_sprite.ts:263 | `"42px"` reads as 42 |
| JsParseInt.ParseIntNegative | pxtblocks/fields/field_sprite.ts:231 | a leading minus negates, so `"-16"` reads as -16 |
| JsParseInt.ParseIntNoDigits | pxtblocks/fields/field_sprite.ts:231-234 | for every string whose first character after leading white space is neither a digit nor a sign, or that is only white space, `parseInt` is NaN |
| JsParseInt.ParseIntNaNExamples | pxtblocks/fields/field_sprite.ts:234 | `"abc"` and the empty string read as NaN |
| JsParseInt.ParseIntSignedDigits | pxtblocks/fields/field_sprite.ts:231-232 | for every sign `-` or `+` followed by a run of decimal digits and then a non-digit (other than a lone `0` followed by `x` or `X`), `parseInt` reads the digits' value, negated for `-`, and drops the rest |
| JsParseInt.ParseIntSignWithoutDigits | pxtblocks/fields/field_sprite.ts:231-234 | for every sign `-` or `+` not followed by a digit, `parseInt` is NaN |
| JsParseInt.ParseIntPlusExample | pxtblocks/fields/field_sprite.ts:231-232 | `"+16"` reads as 16 |
| JsParseInt.ParseIntMinusSuffixExample | pxtblocks/fields/field_sprite.ts:231-232 | `"-16px"` reads as -16 |
| JsParseInt.ParseIntSignNaNExamples | pxtblocks/fields/field_sprite.ts:234 | `"-"` and `"+x"` read as NaN |
| JsParseInt.ParseIntHexPrefix | pxtblocks/fields/field_sprite.ts:231-232 | without a radix, `0x` or `0X` followed by hexadecimal digits reads those digits in base 16, for every such digit run |
| JsParseInt.ParseIntHexExample | pxtblocks/fields/field_sprite.ts:263 | `"0x1A"` reads as 26 |
| JsParseInt.ParseIntHexSuffix | pxtblocks/fields/field_sprite.ts:231-232 | for every run of hexadecimal digits after `0x` or `0X` followed by a non-hexadecimal character, `parseInt` reads the run in base 16 and drops the rest |
| JsParseInt.ParseIntSignedHex | pxtblocks/fields/field_sprite.ts:231-232 | a sign before any such hexadecimal numeral gives its value, negated for `-` |
| JsParseInt.ParseIntHexWithoutDigits | pxtblocks/fields/field_sprite.ts:231-234 | `0x` or `0X` not followed by a hexadecimal digit is NaN, whatever follows |
| JsParseInt.ParseIntHexNaNExamples | pxtblocks/fields/field_sprite.ts:234 | `"0x"` and `"0xg"` read as NaN |
| JsParseInt.ParseIntHexSuffixExample | pxtblocks/fields/field_sprite.ts:231-232 | `"0x1Ag"` reads as 26 |
| JsParseInt.ParseIntSignedHexExample | pxtblocks/fields/field_sprite.ts:231-232 | `"-0x1A"` reads as -26 |
| FieldOptions.WithDefault | pxtblocks/fields/field_sprite.ts:262-268 | the parsed integer when the raw value parses, the given default when it is absent or NaN |
| FieldOptions.OrScreen | pxtblocks/fields/field_sprite.ts:238-242 | a non-negative size is kept; a negative one becomes the screen's size on that axis whenever the target declares one, whatever its sign, and is kept otherwise |
| FieldOptions.ParsePair | pxtblocks/fields/field_sprite.ts:226-244 | an entry survives exactly when it splits on `,` into two pieces that both parse as integers |
| FieldOptions.Survivors | pxtblocks/fields/field_sprite.ts:224-245 | the sizes list holds no more entries than there were pairs, and each is the parse of some pair |
| FieldOptions.SizeFromList | pxtblocks/fields/field_sprite.ts:222-250 | an absent or empty `sizes` keeps the 16 by 16 default; `SizeFromSurvivor` and `SizeWithoutSurvivor` give the rest |
| FieldOptions.FirstSurvivorWins | pxtblocks/fields/field_sprite.ts:246-249 | the list is non-empty exactly when some entry survives, and its head is the parse of the first surviving entry |
| FieldOptions.SizeFromSurvivor | pxtblocks/fields/field_sprite.ts:246-248 | the size a non-empty `sizes` string selects is the parse of its first surviving entry |
| FieldOptions.SizeWithoutSurvivor | pxtblocks/fields/field_sprite.ts:246-249 | when no entry survives, the width and height stay at the 16 by 16 default |
| FieldOptions.ParseFieldOptions | pxtblocks/fields/field_sprite.ts:211-260 | absent options give exactly `{1, 16, 16}` with no filter; `filter` is copied when it is a non-empty string and absent otherwise |
| FieldOptions.ExplicitFieldsWin | pxtblocks/fields/field_sprite.ts:256-258 | precedence: an explicit field that parses wins; otherwise the first surviving `sizes` entry; otherwise the defaults |
| FieldOptions.FilterTouchesNothingElse | pxtblocks/fields/field_sprite.ts:252-254 | changing `filter` changes only the result's filter, never the colour or the size |
| FieldOptions.OnlySizesGiven | pxtblocks/fields/field_sprite.ts:222-258 | with only `sizes` given, the colour is 1, there is no filter, and the size is the one the list selects |
| FieldOptions.ParsePairOfNumerals | pxtblocks/fields/field_sprite.ts:231-244 | an entry printed from two integers survives; a negative component becomes the screen size on that axis when there is one and is kept otherwise |
| FieldOptions.ParsePairOfParts | pxtblocks/fields/field_sprite.ts:226-244 | for every entry that splits into two pieces that parse, the entry survives, and each negative component becomes the screen size on its axis when there is one |
| FieldOptions.FirstOfTwoSizes | pxtblocks/fields/field_sprite.ts:246-249 | for `"w1,h1;w2,h2"` with non-negative `w1`, `h1`, `w2`, `h2` the result is `w1` by `h1`: later entries are parsed but ignored |
| FieldOptions.MalformedSizeIgnored | pxtblocks/fields/field_sprite.ts:231-236 | a sole entry whose width is not a number, such as `"abc,16"`, leaves the defaults `{1, 16, 16}` |
| FieldOptions.MalformedSizeExample | pxtblocks/fields/field_sprite.ts:226-236 | `sizes: "abc,16"` leaves the defaults `{1, 16, 16}` |
| Bitmaps.Blank | pxtblocks/fields/field_sprite.ts:53 | a new bitmap has the requested size and every cell transparent (index 0) |
| SpriteField.ParseBitmap | pxtblocks/fields/field_sprite.ts:155-162 | the decoding replaces the state when it has non-zero width and height; otherwise the state is kept |
| SpriteField.DoValueUpdate | pxtblocks/fields/field_sprite.ts:121-130 | a null value is a complete no-op with no redraw; any other value becomes `value_` and asks for a redraw |
| SpriteField.CommitEditorResult | pxtblocks/fields/field_sprite.ts:90-97 | a commit never touches `value_`; an absent or empty result changes nothing and does not redraw |
| SpriteField.Construct | pxtblocks/fields/field_sprite.ts:45-55 | a constructed field always has a bitmap, and a usable one when the configured size is positive |
| SpriteField.GetValue | pxtblocks/fields/field_sprite.ts:117-119 | the field reports text exactly when it holds a bitmap |
| SpriteField.TextUpdateGate | pxtblocks/fields/field_sprite.ts:121-126 | null assignment leaves the field unchanged; a usable decoding replaces the state; an unusable one leaves it unchanged |
| SpriteField.TextUpdateKeepsUsable | pxtblocks/fields/field_sprite.ts:158-161 | text assignment preserves the invariant that the field shows a bitmap of non-zero size |
| SpriteField.TextRoundTrip | pxtblocks/fields/field_sprite.ts:155-161 | assigning the encoding of a valid non-empty bitmap makes the field show that bitmap |
| SpriteField.ReassignOwnValue | pxtblocks/fields/field_sprite.ts:117-126 | assigning a field the text it reports changes neither its bitmap nor the text it reports |
| SpriteField.TextUpdateIdempotent | pxtblocks/fields/field_sprite.ts:121-130 | assigning the same value twice is the same as assigning it once |
| SpriteField.CommitReplacesUnconditionally | pxtblocks/fields/field_sprite.ts:93-97 | a non-empty commit result replaces the state with its decoding, whatever it is, and redraws |
| SpriteField.CommitRoundTrip | pxtblocks/fields/field_sprite.ts:96 | committing the encoding of any valid bitmap shows that bitmap, even a zero-size one |
| SpriteField.CommitSkipsTheGate | pxtblocks/fields/field_sprite.ts:93-96 | a codec that decodes everything to a 0 by 0 bitmap is ignored by assignment and obeyed by a commit |
| SpriteField.ConstructedState | pxtblocks/fields/field_sprite.ts:45-55 | a new field shows the usable decoding of its initial text, else a blank bitmap of the configured size |
| SpriteField.AssignAllKeepsUsable | pxtblocks/fields/field_sprite.ts:155-162 | any run of text assignments keeps a usable bitmap usable |
| SpriteField.ConstructedFieldStaysUsable | pxtblocks/fields/field_sprite.ts:45-55 | a field built with a positive size shows a usable bitmap from the start and after any run of text assignments |
| Preview.LayoutOf | pxtblocks/fields/field_sprite.ts:176-180 | the cell size is positive; both offsets are non-negative; both are 0 for a square sprite; at most one is non-zero |
| Preview.LayoutFits | pxtblocks/fields/field_sprite.ts:176 | the scaled sprite fits 32 on both axes and fills exactly 32 on its longer axis |
| Preview.LayoutCentres | pxtblocks/fields/field_sprite.ts:178-180 | each offset is the floor of half the room the scaled sprite leaves on that axis |
| Preview.ScaledIsProduct | pxtblocks/fields/field_sprite.ts:197 | the cell coordinate, written as `c` additions of the cell size, is `c * cellSize` |
| Preview.AxisOrdered | pxtblocks/fields/field_sprite.ts:197 | on one axis a cell ends at or before the start of every later cell |
| Preview.CellWithinAxis | pxtblocks/fields/field_sprite.ts:192-198 | on one axis, each cell of a fitting, centred sprite starts at or after 0 and ends at or before 32 |
| Preview.CellInCanvas | pxtblocks/fields/field_sprite.ts:192-198 | every cell rectangle lies within `[0, 32]` on both axes |
| Preview.CellsDisjoint | pxtblocks/fields/field_sprite.ts:192-203 | the rectangles of two distinct cells never overlap |
| Preview.TallSpriteLayout | pxtblocks/fields/field_sprite.ts:176-180 | a 16 by 32 sprite gets cell size 1, x offset 8 and y offset 0 |
| Preview.Swatch | pxtblocks/fields/field_sprite.ts:196-197 | index `k` is painted with `palette[k]` (entry 0 is sliced off at line 169, then `k - 1` is read), or `undefined` past the end |
| Preview.CellFills | pxtblocks/fields/field_sprite.ts:194-203 | a cell makes at most one fill, its own square; it makes one exactly when its index is non-zero or light mode is on, an index-0 cell is painted `#dedede`, and a non-zero index `k` is painted `colors[k - 1]`, i.e. palette entry `k` |
| Preview.Render | pxtblocks/fields/field_sprite.ts:168-208 | light mode starts with the whole-canvas `#dedede` fill, and there are at most as many further fills as cells |
| Preview.PaintedBound | pxtblocks/fields/field_sprite.ts:192-205 | the loops make at most one fill per visited cell |
| Preview.RenderPreview | pxtblocks/fields/field_sprite.ts:168-208 | the layout, the light-mode background and the loops produce exactly the fill list `Render` defines |
| Preview.PaintCells | pxtblocks/fields/field_sprite.ts:192-205 | the two nested loops, columns outside and rows inside, produce exactly the cell fills `Painted` defines |
| Preview.PaintedMembers | pxtblocks/fields/field_sprite.ts:192-205 | the fills made before a loop position are exactly the fills of the cells visited before it |
| Preview.PaintedIndex | pxtblocks/fields/field_sprite.ts:192-205 | in light mode each cell makes one fill, found at the cell's column-major position |
| Preview.RenderInCanvas | pxtblocks/fields/field_sprite.ts:171-205 | every fill, the light-mode background included, lies inside the 32 by 32 canvas |
| Preview.LightModeCoversEveryCell | pxtblocks/fields/field_sprite.ts:183-205 | light mode first fills the whole canvas with `#dedede`, then paints each cell exactly once: a colour for a non-zero index, `#dedede` for index 0 |
| Preview.LightFillsInOrder | pxtblocks/fields/field_sprite.ts:192-205 | for any layout, the light-mode fills are the background followed by one fill per cell, in loop order |
| Preview.StandardModeDrawsNonZeroCells | pxtblocks/fields/field_sprite.ts:188-203 | standard mode draws exactly the cells with a non-zero index, each in its palette colour, and nothing else |
| Preview.ZeroCellsStayTransparent | pxtblocks/fields/field_sprite.ts:188-203 | in standard mode no fill overlaps a cell with index 0, so that cell stays transparent |

## Left out

- The Blockly field lifecycle is not modelled: `init`, `render_`, `redrawPreview` and its SVG
  nodes, mouse binding and change events (lines 57-80, 111-115, 132-153). It is DOM plumbing.
  This includes `init`'s re-creation of a missing bitmap (lines 68-70).
- The full editor session of `showEditor_` is left out: the React view, `blocksInfo` and the
  persisted undo/redo data (lines 82-109). It is an asynchronous UI session. Only its commit
  effect is modelled, as `CommitEditorResult`.
- The canvas is not modelled: its creation, `getContext`, pixel output, anti-aliasing and
  `toDataURL` (lines 170-172, 184-189, 207). The model returns the rectangle list instead.
  A canvas ignores an `undefined` fill style; the model records the `None` that was assigned.
- Geometry uses exact rationals, not IEEE doubles. When width and height are both powers of
  two, the cell size and every coordinate are dyadic, so doubles compute them exactly. For
  other sizes the cell size and the fill coordinates may differ from the exact value in the
  last bit.
- `JsParseInt.ParseInt` returns an exact integer. JavaScript rounds results beyond 2^53 to a
  double. It also works on Unicode scalar values, not UTF-16 code units.
- `SpriteField.Construct`: assumes that Blockly's base `Field` constructor, called at line 46
  as `super(text, validator)`, passes the initial text through `setValue` to `doValueUpdate_`.
  The base class is not part of this model, and neither are `setValue`'s validator and its
  skipping of a value equal to the current one.
- The internals of the `pxtsprite` codec and of the `Bitmap` class are not part of this model.
  `Bitmaps.Lawful` is an assumption about the codec: decoding undoes encoding, and decoded
  bitmaps are well formed. The model does not prove it.
- `SpriteField.Construct`: requires non-negative configured sizes, because what the `Bitmap`
  constructor does with a negative size is not part of this model. `parseFieldOptions` itself
  can produce one, for example from `initWidth: "-3"`.
- `SpriteField.ConstructedState`: carries the same non-negative size requirement as `Construct`,
  for the same reason.
- `SpriteField.GetValue`: returns `None` when the field has no bitmap, where the source passes
  `undefined` to the codec. The codec's behaviour there is not part of this model.
- Option values that are not strings are not modelled. The options arrive from block
  annotations as strings or absent.
- The global palette and the screen size read from `pxt.appTarget.runtime` are parameters.

=== FILE: bitmaps.dfy ===
/** The sprite bitmap and the text codec it is exchanged through. The codec
    (image literal text to bitmap and back) belongs to another package, so it
    is a value passed in rather than code modelled here. */
module Bitmaps {
  import opened Wrappers

  /** A `width` by `height` grid of palette indices; index 0 is transparent.
      `pixels[r][c]` is the cell in column `c` and row `r`. */
  datatype Bitmap = Bitmap(width: nat, height: nat, pixels: seq<seq<nat>>) {

    predicate Valid() {
      && |pixels| == height
      && forall r :: 0 <= r < height ==> |pixels[r]| == width
    }

    /** `bitmap.get(c, r)`. */
    function Get(c: nat, r: nat): nat
      requires Valid() && c < width && r < height
    {
      pixels[r][c]
    }
  }

  /** `new Bitmap(w, h)`: every cell transparent. */
  function Blank(w: nat, h: nat): (b: Bitmap)
    ensures b.Valid() && b.width == w && b.height == h
    ensures forall c, r :: 0 <= c < w && 0 <= r < h ==> b.Get(c, r) == 0
  {
    Bitmap(w, h, seq(h, _ => seq(w, _ => 0)))
  }

  /** `imageLiteralToBitmap` and `bitmapToImageLiteral`. Decoding reports a
      malformed text as `None` instead of raising. */
  datatype Codec = Codec(decode: string -> Option<Bitmap>, encode: Bitmap -> string)

  /** The laws the codec is trusted to keep: every bitmap it yields is
      well formed, and decoding undoes encoding. */
  ghost predicate Lawful(codec: Codec) {
    && (forall t :: codec.decode(t).Some? ==> codec.decode(t).value.Valid())
    && (forall b: Bitmap :: b.Valid() ==> codec.decode(codec.encode(b)) == Some(b))
  }
}

=== FILE: field_options.dfy ===
/** `parseFieldOptions`: the loosely typed options of the sprite field, as the
    block definition supplies them (every value a string, any of them absent),
    normalised into typed options. Later sources win: built-in defaults, then
    the first well-formed pair of the legacy `sizes` list, then the explicit
    `initColor`, `initWidth` and `initHeight` fields. */
module FieldOptions {
  import opened Wrappers
  import opened JsString
  import opened JsParseInt

  const DefaultColor: int := 1
  const DefaultWidth: int := 16
  const DefaultHeight: int := 16

  /** The raw options; `None` is a field that is absent (`undefined`). */
  datatype RawOptions = RawOptions(
    sizes: Option<string>,
    initColor: Option<string>,
    initWidth: Option<string>,
    initHeight: Option<string>,
    filter: Option<string>)

  /** The normalised options. */
  datatype Options = Options(initColor: int, initWidth: int, initHeight: int, filter: Option<string>)

  /** The target's declared screen size, when it declares one. */
  datatype ScreenSize = ScreenSize(width: int, height: int)

  /** JavaScript truthiness of a string that may be absent. */
  predicate Truthy(s: Option<string>) {
    s.Some? && |s.value| > 0
  }

  /** `withDefault`: the integer `raw` parses as, or `def` when it is NaN. */
  function WithDefault(raw: Option<string>, def: int): (r: int)
    ensures ParseIntOf(raw).Some? ==> r == ParseIntOf(raw).value
    ensures ParseIntOf(raw).None? ==> r == def
  {
    ParseIntOf(raw).GetOr(def)
  }

  /** A negative size asks for the screen's size on that axis, when there is one. */
  function OrScreen(v: int, axis: Option<int>): (r: int)
    ensures v >= 0 ==> r == v
    ensures axis.None? ==> r == v
    ensures v < 0 && axis.Some? ==> r == axis.value
    ensures axis.Some? && axis.value >= 0 ==> r >= 0
    ensures r == v || (axis.Some? && r == axis.value)
  {
    if v < 0 && axis.Some? then axis.value else v
  }

  function ScreenWidth(screen: Option<ScreenSize>): Option<int> {
    if screen.Some? then Some(screen.value.width) else None
  }

  function ScreenHeight(screen: Option<ScreenSize>): Option<int> {
    if screen.Some? then Some(screen.value.height) else None
  }

  /** One entry `"w,h"` of the legacy `sizes` list. It survives exactly when it
      splits on `,` into two pieces and both pieces parse as integers. */
  function ParsePair(p: string, screen: Option<ScreenSize>): (r: Option<(int, int)>)
    ensures r.Some? <==>
      && |Split(p, ',')| == 2
      && ParseInt(Split(p, ',')[0]).Some?
      && ParseInt(Split(p, ',')[1]).Some?
  {
    var parts := Split(p, ',');
    if |parts| != 2 then None
    else
      match (ParseInt(parts[0]), ParseInt(parts[1]))
      case (Some(w), Some(h)) => Some((OrScreen(w, ScreenWidth(screen)), OrScreen(h, ScreenHeight(screen))))
      case _ => None
  }

  /** Entry `i` is the first one of `xs` that `parse` accepts. */
  predicate FirstSurvivor<T>(xs: seq<string>, parse: string -> Option<T>, i: int) {
    && 0 <= i < |xs|
    && parse(xs[i]).Some?
    && forall j :: 0 <= j < i ==> parse(xs[j]).None?
  }

  /** What a loop that pushes every accepted entry builds: the accepted
      entries, parsed, in order. */
  function Survivors<T>(xs: seq<string>, parse: string -> Option<T>): (ys: seq<T>)
    ensures |ys| <= |xs|
    ensures forall k :: 0 <= k < |ys| ==> exists i :: 0 <= i < |xs| && parse(xs[i]) == Some(ys[k])
  {
    if |xs| == 0 then []
    else
      var rest := Survivors(xs[1..], parse);
      assert forall k :: 0 <= k < |rest| ==> exists i :: 0 <= i < |xs| && parse(xs[i]) == Some(rest[k]) by {
        forall k | 0 <= k < |rest|
          ensures exists i :: 0 <= i < |xs| && parse(xs[i]) == Some(rest[k])
        {
          var i :| 0 <= i < |xs[1..]| && parse(xs[1..][i]) == Some(rest[k]);
          assert xs[1..][i] == xs[i + 1];
        }
      }
      match parse(xs[0])
      case Some(y) => [y] + rest
      case None => rest
  }

  /** The entry parser the `sizes` loop uses. */
  function PairParser(screen: Option<ScreenSize>): string -> Option<(int, int)> {
    p => ParsePair(p, screen)
  }

  /** The size `sizes` selects: its first surviving entry, else the defaults
      (`SizeFromSurvivor`, `SizeWithoutSurvivor`). */
  function SizeFromList(sizes: Option<string>, screen: Option<ScreenSize>): (r: (int, int))
    ensures !Truthy(sizes) ==> r == (DefaultWidth, DefaultHeight)
  {
    if Truthy(sizes) then
      var parsed := Survivors(Split(sizes.value, ';'), PairParser(screen));
      if |parsed| > 0 then parsed[0] else (DefaultWidth, DefaultHeight)
    else (DefaultWidth, DefaultHeight)
  }

  /** `parseFieldOptions(opts)`. */
  function ParseFieldOptions(opts: Option<RawOptions>, screen: Option<ScreenSize>): (r: Options)
    ensures opts.None? ==> r == Options(1, 16, 16, None)
    ensures opts.Some? && Truthy(opts.value.filter) ==> r.filter == opts.value.filter
    ensures opts.Some? && !Truthy(opts.value.filter) ==> r.filter.None?
  {
    match opts
    case None => Options(DefaultColor, DefaultWidth, DefaultHeight, None)
    case Some(o) =>
      var (w, h) := SizeFromList(o.sizes, screen);
      Options(
        WithDefault(o.initColor, DefaultColor),
        WithDefault(o.initWidth, w),
        WithDefault(o.initHeight, h),
        if Truthy(o.filter) then o.filter else None)
  }

  // ---------------------------------------------------------------------
  // Properties

  /** Only the first surviving entry of the list matters, and the list yields
      a size exactly when some entry survives. */
  lemma {:induction false} FirstSurvivorWins<T>(xs: seq<string>, parse: string -> Option<T>)
    ensures |Survivors(xs, parse)| > 0 <==> exists i :: 0 <= i < |xs| && parse(xs[i]).Some?
    ensures forall i :: FirstSurvivor(xs, parse, i) ==> Survivors(xs, parse)[0] == parse(xs[i]).value
    decreases |xs|
  {
    if |xs| > 0 {
      var tail := xs[1..];
      FirstSurvivorWins(tail, parse);
      if parse(xs[0]).None? {
        if exists i :: 0 <= i < |xs| && parse(xs[i]).Some? {
          var i :| 0 <= i < |xs| && parse(xs[i]).Some?;
          assert tail[i - 1] == xs[i];
        }
        forall i | FirstSurvivor(xs, parse, i)
          ensures Survivors(xs, parse)[0] == parse(xs[i]).value
        {
          assert tail[i - 1] == xs[i];
          forall j | 0 <= j < i - 1
            ensures parse(tail[j]).None?
          {
            assert tail[j] == xs[j + 1];
          }
          assert FirstSurvivor(tail, parse, i - 1);
        }
      } else {
        forall i | FirstSurvivor(xs, parse, i)
          ensures i == 0
        {
        }
      }
    }
  }

  /** The full precedence of `parseFieldOptions`: an explicit field that parses
      as an integer wins; otherwise the first surviving `sizes` entry sets the
      width and height; otherwise the built-in defaults stay. */
  lemma ExplicitFieldsWin(o: RawOptions, screen: Option<ScreenSize>)
    ensures var r := ParseFieldOptions(Some(o), screen);
      && (ParseIntOf(o.initColor).Some? ==> r.initColor == ParseIntOf(o.initColor).value)
      && (ParseIntOf(o.initColor).None? ==> r.initColor == DefaultColor)
      && (ParseIntOf(o.initWidth).Some? ==> r.initWidth == ParseIntOf(o.initWidth).value)
      && (ParseIntOf(o.initHeight).Some? ==> r.initHeight == ParseIntOf(o.initHeight).value)
    ensures var r := ParseFieldOptions(Some(o), screen);
      forall i :: Truthy(o.sizes) && FirstSurvivor(Split(o.sizes.value, ';'), PairParser(screen), i) ==>
        && (ParseIntOf(o.initWidth).None? ==> r.initWidth == ParsePair(Split(o.sizes.value, ';')[i], screen).value.0)
        && (ParseIntOf(o.initHeight).None? ==> r.initHeight == ParsePair(Split(o.sizes.value, ';')[i], screen).value.1)
    ensures var r := ParseFieldOptions(Some(o), screen);
      (!Truthy(o.sizes) || forall i :: 0 <= i < |Split(o.sizes.value, ';')| ==> ParsePair(Split(o.sizes.value, ';')[i], screen).None?) ==>
        && (ParseIntOf(o.initWidth).None? ==> r.initWidth == DefaultWidth)
        && (ParseIntOf(o.initHeight).None? ==> r.initHeight == DefaultHeight)
  {
    if Truthy(o.sizes) {
      FirstSurvivorWins(Split(o.sizes.value, ';'), PairParser(screen));
    }
  }

  /** `filter` is passed through and touches nothing else. */
  lemma FilterTouchesNothingElse(o: RawOptions, f: Option<string>, screen: Option<ScreenSize>)
    ensures ParseFieldOptions(Some(o.(filter := f)), screen)
         == ParseFieldOptions(Some(o), screen).(filter := if Truthy(f) then f else None)
  {
  }

  /** An entry printed from two integers survives, and a negative component
      is replaced by the screen size on its axis when the target declares one. */
  lemma ParsePairOfNumerals(w: int, h: int, screen: Option<ScreenSize>)
    ensures ParsePair(IntToDecimal(w) + "," + IntToDecimal(h), screen)
         == Some((if w < 0 && screen.Some? then screen.value.width else w,
                  if h < 0 && screen.Some? then screen.value.height else h))
  {
    var a := IntToDecimal(w);
    var b := IntToDecimal(h);
    NumeralHasNo(w, ',');
    NumeralHasNo(h, ',');
    SplitInTwo(a, b, ',');
    ParseIntRoundTrip(w);
    ParseIntRoundTrip(h);
    ParsePairOfParts(a + "," + b, a, b, w, h, screen);
  }

  lemma SplitInTwo(a: string, b: string, sep: char)
    requires sep !in a && sep !in b
    ensures Split(a + [sep] + b, sep) == [a, b]
  {
    assert Join([b], sep) == b;
    assert Join([a, b], sep) == a + [sep] + b by {
      assert [a, b][1..] == [b];
    }
    SplitJoin([a, b], sep);
  }

  lemma ParsePairOfParts(p: string, a: string, b: string, w: int, h: int, screen: Option<ScreenSize>)
    requires Split(p, ',') == [a, b]
    requires ParseInt(a) == Some(w) && ParseInt(b) == Some(h)
    ensures ParsePair(p, screen)
         == Some((if w < 0 && screen.Some? then screen.value.width else w,
                  if h < 0 && screen.Some? then screen.value.height else h))
  {
  }

  /** A numeral consists of digits and perhaps a minus sign. */
  lemma NumeralHasNo(n: int, ch: char)
    requires ch != '-' && DigitValue(ch, 10).None?
    ensures ch !in IntToDecimal(n)
  {
    var d := NatToDecimal(if n < 0 then -n else n);
    assert forall i :: 0 <= i < |d| ==> IsDigit(d[i], 10);
  }

  /** With only `sizes` given, the result is the size the list selects. */
  lemma OnlySizesGiven(sizes: string, screen: Option<ScreenSize>)
    ensures var (w, h) := SizeFromList(Some(sizes), screen);
      ParseFieldOptions(Some(RawOptions(Some(sizes), None, None, None, None)), screen) == Options(1, w, h, None)
  {
  }

  /** The size the list selects is its first surviving entry, or the defaults. */
  lemma SizeFromSurvivor(sizes: string, screen: Option<ScreenSize>, i: int)
    requires |sizes| > 0
    requires FirstSurvivor(Split(sizes, ';'), PairParser(screen), i)
    ensures SizeFromList(Some(sizes), screen) == ParsePair(Split(sizes, ';')[i], screen).value
  {
    FirstSurvivorWins(Split(sizes, ';'), PairParser(screen));
  }

  lemma SizeWithoutSurvivor(sizes: string, screen: Option<ScreenSize>)
    requires forall i :: 0 <= i < |Split(sizes, ';')| ==> ParsePair(Split(sizes, ';')[i], screen).None?
    ensures SizeFromList(Some(sizes), screen) == (DefaultWidth, DefaultHeight)
  {
    FirstSurvivorWins(Split(sizes, ';'), PairParser(screen));
  }

  /** The first of two numeral entries wins over the second. */
  lemma FirstOfTwoSizes(w1: nat, h1: nat, w2: nat, h2: nat, screen: Option<ScreenSize>)
    ensures var first := IntToDecimal(w1) + "," + IntToDecimal(h1);
      var second := IntToDecimal(w2) + "," + IntToDecimal(h2);
      ParseFieldOptions(Some(RawOptions(Some(first + ";" + second), None, None, None, None)), screen)
        == Options(1, w1, h1, None)
  {
    var first := IntToDecimal(w1) + "," + IntToDecimal(h1);
    var second := IntToDecimal(w2) + "," + IntToDecimal(h2);
    var sizes := first + ";" + second;
    NumeralHasNo(w1, ';');
    NumeralHasNo(h1, ';');
    NumeralHasNo(w2, ';');
    NumeralHasNo(h2, ';');
    SplitInTwo(first, second, ';');
    var pairs := Split(sizes, ';');
    ParsePairOfNumerals(w1, h1, screen);
    assert PairParser(screen)(pairs[0]).Some?;
    assert FirstSurvivor(pairs, PairParser(screen), 0);
    SizeFromSurvivor(sizes, screen, 0);
    OnlySizesGiven(sizes, screen);
  }

  /** A sole entry whose width does not parse leaves the defaults in place;
      `"abc,16"` is one such entry. */
  lemma MalformedSizeIgnored(a: string, b: string, screen: Option<ScreenSize>)
    requires ',' !in a && ',' !in b && ';' !in a && ';' !in b
    requires ParseInt(a).None?
    ensures ParseFieldOptions(Some(RawOptions(Some(a + "," + b), None, None, None, None)), screen)
         == Options(1, 16, 16, None)
  {
    var sizes := a + "," + b;
    assert ';' !in sizes;
    assert Split(sizes, ';') == [sizes] by {
      assert Join([sizes], ';') == sizes;
      SplitJoin([sizes], ';');
    }
    SplitInTwo(a, b, ',');
    assert ParsePair(sizes, screen).None?;
    SizeWithoutSurvivor(sizes, screen);
    OnlySizesGiven(sizes, screen);
  }

  /** The sizes string `"abc,16"`: its width is NaN, so the defaults stay. */
  lemma MalformedSizeExample(screen: Option<ScreenSize>)
    ensures ParseFieldOptions(Some(RawOptions(Some("abc,16"), None, None, None, None)), screen)
         == Options(1, 16, 16, None)
  {
    ParseIntNaNExamples();
    assert "abc" + "," + "16" == "abc,16";
    MalformedSizeIgnored("abc", "16", screen);
  }
}

=== FILE: js_parse_int.dfy ===
/** JavaScript's global `parseInt(string)` with no radix argument, as the
    ECMAScript standard defines it (section 19.2.5 of ECMA-262): skip leading
    white space, read an optional sign, treat a `0x`/`0X` prefix as base 16,
    and take the longest run of digits of that base. `None` stands for `NaN`. */
module JsParseInt {
  import opened Wrappers

  /** StrWhiteSpaceChar: the white space and line terminator characters. */
  predicate IsWhiteSpace(ch: char) {
    || ch == '\t' || ch == '\n' || ch == '\U{000B}' || ch == '\U{000C}' || ch == '\r'
    || ch == ' ' || ch == '\U{00A0}' || ch == '\U{1680}'
    || ('\U{2000}' <= ch <= '\U{200A}')
    || ch == '\U{2028}' || ch == '\U{2029}' || ch == '\U{202F}' || ch == '\U{205F}'
    || ch == '\U{3000}' || ch == '\U{FEFF}'
  }

  /** The value of `ch` as a digit of base `radix` (10 or 16), if it is one. */
  function DigitValue(ch: char, radix: nat): Option<nat> {
    if '0' <= ch <= '9' then Some(ch as nat - '0' as nat)
    else if radix == 16 && 'a' <= ch <= 'f' then Some(ch as nat - 'a' as nat + 10)
    else if radix == 16 && 'A' <= ch <= 'F' then Some(ch as nat - 'A' as nat + 10)
    else None
  }

  predicate IsDigit(ch: char, radix: nat) {
    DigitValue(ch, radix).Some?
  }

  predicate AllDigits(s: string, radix: nat) {
    forall i :: 0 <= i < |s| ==> IsDigit(s[i], radix)
  }

  /** The string without its leading white space. */
  function TrimStart(s: string): (t: string)
    ensures |t| <= |s|
    ensures forall i :: 0 <= i < |s| - |t| ==> IsWhiteSpace(s[i])
    ensures t == [] || !IsWhiteSpace(t[0])
  {
    if |s| > 0 && IsWhiteSpace(s[0]) then TrimStart(s[1..]) else s
  }

  /** The longest prefix of `s` made of base-`radix` digits. */
  function DigitPrefix(s: string, radix: nat): (d: string)
    ensures d <= s
    ensures AllDigits(d, radix)
    ensures |d| == |s| || !IsDigit(s[|d|], radix)
  {
    if |s| == 0 || !IsDigit(s[0], radix) then []
    else [s[0]] + DigitPrefix(s[1..], radix)
  }

  /** The number a run of digits denotes, most significant digit first. */
  function DigitsValue(d: string, radix: nat): nat
    requires AllDigits(d, radix)
  {
    if |d| == 0 then 0
    else DigitsValue(d[..|d| - 1], radix) * radix + DigitValue(d[|d| - 1], radix).value
  }

  /** The digits after the sign: a `0x`/`0X` prefix selects base 16,
      otherwise base 10. `None` when no digit follows. */
  function ParseUnsigned(u: string): Option<nat> {
    var hex := |u| >= 2 && u[0] == '0' && (u[1] == 'x' || u[1] == 'X');
    var radix := if hex then 16 else 10;
    var digits := DigitPrefix(if hex then u[2..] else u, radix);
    if |digits| == 0 then None else Some(DigitsValue(digits, radix))
  }

  /** parseInt of a string that starts with no white space: an optional sign,
      then the unsigned part. */
  function ParseSigned(t: string): Option<int> {
    var negative := |t| > 0 && t[0] == '-';
    var unsigned := if |t| > 0 && (t[0] == '-' || t[0] == '+') then t[1..] else t;
    match ParseUnsigned(unsigned)
    case None => None
    case Some(v) => if negative then Some(-(v as int)) else Some(v as int)
  }

  /** `parseInt(s)`; `None` is `NaN`. A number needs a digit or a sign
      right after the leading white space. */
  function ParseInt(s: string): (r: Option<int>)
    ensures r.Some? ==> var t := TrimStart(s);
      |t| > 0 && (IsDigit(t[0], 10) || t[0] == '-' || t[0] == '+')
  {
    ParseSigned(TrimStart(s))
  }

  /** `parseInt` applied to a value that may be `undefined`; `parseInt(undefined)` is `NaN`. */
  function ParseIntOf(raw: Option<string>): Option<int> {
    match raw
    case None => None
    case Some(s) => ParseInt(s)
  }

  // ---------------------------------------------------------------------
  // The decimal printer; `ParseIntRoundTrip` proves `parseInt` reads back what it prints.

  function DigitChar(n: nat): (ch: char)
    requires n < 10
    ensures DigitValue(ch, 10) == Some(n)
  {
    ['0', '1', '2', '3', '4', '5', '6', '7', '8', '9'][n]
  }

  /** The shortest decimal numeral of `n`. */
  function NatToDecimal(n: nat): (s: string)
    ensures |s| >= 1 && AllDigits(s, 10)
  {
    if n < 10 then [DigitChar(n)] else NatToDecimal(n / 10) + [DigitChar(n % 10)]
  }

  /** `String(n)` for an integer `n`. */
  function IntToDecimal(n: int): string {
    if n < 0 then "-" + NatToDecimal(-n) else NatToDecimal(n)
  }

  lemma {:induction false} DecimalValue(n: nat)
    ensures DigitsValue(NatToDecimal(n), 10) == n
  {
    if n >= 10 {
      DecimalValue(n / 10);
      var s := NatToDecimal(n);
      assert s[..|s| - 1] == NatToDecimal(n / 10);
    }
  }

  lemma {:induction false} DigitPrefixOfDigits(s: string, radix: nat)
    requires AllDigits(s, radix)
    ensures DigitPrefix(s, radix) == s
    decreases |s|
  {
    if |s| > 0 {
      DigitPrefixOfDigits(s[1..], radix);
      assert s == [s[0]] + s[1..];
    }
  }

  /** A run of decimal digits reads back as its value. */
  lemma DecimalNumeralParses(d: string)
    requires |d| >= 1 && AllDigits(d, 10)
    ensures ParseUnsigned(d) == Some(DigitsValue(d, 10))
  {
    assert |d| >= 2 ==> d[1] != 'x' && d[1] != 'X' by {
      if |d| >= 2 { assert IsDigit(d[1], 10); }
    }
    DigitPrefixOfDigits(d, 10);
  }

  /** What trimming leaves is a suffix of the string. */
  lemma {:induction false} TrimStartIsSuffix(s: string)
    ensures TrimStart(s) == s[|s| - |TrimStart(s)|..]
  {
    if |s| > 0 && IsWhiteSpace(s[0]) {
      TrimStartIsSuffix(s[1..]);
    }
  }

  /** A string that starts with no white space is its own trim. */
  lemma TrimStartStops(s: string)
    requires |s| > 0 && !IsWhiteSpace(s[0])
    ensures TrimStart(s) == s
  {
  }

  /** A string with no sign reads as its unsigned part. */
  lemma UnsignedIsSigned(d: string, v: nat)
    requires |d| >= 1 && d[0] != '-' && d[0] != '+' && ParseUnsigned(d) == Some(v)
    ensures ParseSigned(d) == Some(v as int)
  {
  }

  /** A digit is neither white space nor a sign. */
  lemma DigitNotSpace(ch: char)
    requires IsDigit(ch, 10)
    ensures !IsWhiteSpace(ch) && ch != '-' && ch != '+'
  {
  }

  lemma PositiveNumeralParses(d: string)
    requires |d| >= 1 && AllDigits(d, 10)
    ensures ParseInt(d) == Some(DigitsValue(d, 10))
  {
    assert IsDigit(d[0], 10);
    DigitNotSpace(d[0]);
    DecimalNumeralParses(d);
    UnsignedIsSigned(d, DigitsValue(d, 10));
    UntrimmedParse(d, DigitsValue(d, 10));
  }

  /** A leading minus sign negates what the rest reads as. */
  lemma MinusNegates(t: string, v: nat)
    requires |t| > 0 && t[0] == '-' && ParseUnsigned(t[1..]) == Some(v)
    ensures ParseSigned(t) == Some(-(v as int))
  {
  }

  /** A string with no leading white space parses by its sign and digits. */
  lemma UntrimmedParse(s: string, v: int)
    requires |s| > 0 && !IsWhiteSpace(s[0]) && ParseSigned(s) == Some(v)
    ensures ParseInt(s) == Some(v)
  {
    TrimStartStops(s);
  }

  /** A minus sign followed by digits of value `v` reads as `-v`. */
  lemma MinusNumeralParses(d: string, v: nat)
    requires |d| >= 1 && AllDigits(d, 10) && v == DigitsValue(d, 10)
    ensures ParseInt("-" + d) == Some(-(v as int))
  {
    DecimalNumeralParses(d);
    SignBeforeUnsigned('-', d, v);
    assert "-" + d == ['-'] + d;
  }

  /** parseInt reads back exactly the integer that String() printed. */
  lemma ParseIntRoundTrip(n: int)
    ensures ParseInt(IntToDecimal(n)) == Some(n)
  {
    var m: nat := if n < 0 then -n else n;
    var d := NatToDecimal(m);
    DecimalValue(m);
    if n < 0 {
      MinusNumeralParses(d, m);
    } else {
      PositiveNumeralParses(d);
    }
  }

  /** Leading white space never changes what parseInt reads. */
  lemma {:induction false} LeadingWhiteSpaceIgnored(ws: string, s: string)
    requires forall i :: 0 <= i < |ws| ==> IsWhiteSpace(ws[i])
    ensures ParseInt(ws + s) == ParseInt(s)
    decreases |ws|
  {
    if |ws| > 0 {
      assert (ws + s)[1..] == ws[1..] + s;
      LeadingWhiteSpaceIgnored(ws[1..], s);
      assert (ws + s)[0] == ws[0];
      assert TrimStart(ws + s) == TrimStart(ws[1..] + s);
    } else {
      assert ws + s == s;
    }
  }

  /** The longest digit prefix ends where the first non-digit is. */
  lemma {:induction false} DigitPrefixStops(d: string, rest: string, radix: nat)
    requires AllDigits(d, radix)
    requires rest == [] || !IsDigit(rest[0], radix)
    ensures DigitPrefix(d + rest, radix) == d
    decreases |d|
  {
    if |d| == 0 {
      assert d + rest == rest;
    } else {
      assert (d + rest)[1..] == d[1..] + rest;
      DigitPrefixStops(d[1..], rest, radix);
      assert (d + rest)[0] == d[0];
      assert d == [d[0]] + d[1..];
    }
  }

  /** Decimal digits followed by a non-digit read as the digits alone,
      unless they form a `0x` prefix. */
  lemma DecimalWithSuffix(s: string, d: string, rest: string)
    requires |d| >= 1 && AllDigits(d, 10) && s == d + rest
    requires rest == [] || !IsDigit(rest[0], 10)
    requires |d| == 1 && d[0] == '0' && |rest| > 0 ==> rest[0] != 'x' && rest[0] != 'X'
    ensures ParseUnsigned(s) == Some(DigitsValue(d, 10))
  {
    assert !(|s| >= 2 && s[0] == '0' && (s[1] == 'x' || s[1] == 'X')) by {
      if |s| >= 2 && |d| >= 2 {
        assert s[1] == d[1] && IsDigit(d[1], 10);
      } else if |s| >= 2 {
        assert s[0] == d[0] && s[1] == rest[0];
      }
    }
    DigitPrefixStops(d, rest, 10);
  }

  /** Trailing characters after the digits are dropped: decimal digits
      followed by anything that is not a digit read as the digits alone. The
      one exception is a lone `0` followed by `x` or `X`, which starts a
      hexadecimal numeral. */
  lemma ParseIntDropsSuffix(d: string, rest: string)
    requires |d| >= 1 && AllDigits(d, 10)
    requires rest == [] || !IsDigit(rest[0], 10)
    requires |d| == 1 && d[0] == '0' && |rest| > 0 ==> rest[0] != 'x' && rest[0] != 'X'
    ensures ParseInt(d + rest) == Some(DigitsValue(d, 10))
  {
    var s := d + rest;
    assert s[0] == d[0] && IsDigit(d[0], 10);
    DigitNotSpace(d[0]);
    DecimalWithSuffix(s, d, rest);
    UnsignedIsSigned(s, DigitsValue(d, 10));
    UntrimmedParse(s, DigitsValue(d, 10));
  }

  /** `"42px"` reads as 42. */
  lemma ParseIntSuffixExample()
    ensures ParseInt("42px") == Some(42)
  {
    var s := "42px";
    assert !IsWhiteSpace(s[0]);
    assert TrimStart(s) == s;
    assert DigitPrefix(s[2..], 10) == [];
    assert DigitPrefix(s, 10) == "42";
    assert DigitsValue("4", 10) == 4;
  }

  /** A leading minus sign negates. */
  lemma ParseIntNegative()
    ensures ParseInt("-16") == Some(-16)
  {
    var s := "-16";
    assert !IsWhiteSpace(s[0]);
    assert TrimStart(s) == s;
    assert s[1..] == "16";
    assert DigitPrefix("16", 10) == "16";
    assert DigitsValue("1", 10) == 1;
  }

  /** A leading plus sign is dropped: the rest reads as it is. */
  lemma PlusKeeps(t: string, v: nat)
    requires |t| > 0 && t[0] == '+' && ParseUnsigned(t[1..]) == Some(v)
    ensures ParseSigned(t) == Some(v as int)
  {
  }

  /** A sign followed by unsigned text `u` reads as `u`, negated for `-`. */
  lemma SignedParse(s: string, sign: char, v: nat)
    requires sign == '-' || sign == '+'
    requires |s| >= 1 && s[0] == sign && ParseUnsigned(s[1..]) == Some(v)
    ensures ParseInt(s) == Some(if sign == '-' then -(v as int) else v as int)
  {
    if sign == '-' {
      MinusNegates(s, v);
    } else {
      PlusKeeps(s, v);
    }
    UntrimmedParse(s, if sign == '-' then -(v as int) else v as int);
  }

  /** A sign, then decimal digits of value `v`, then anything that is not a
      digit: `v` is read, negated for `-`, and the rest is dropped (the lone
      `0` followed by `x` or `X` again excepted). */
  lemma ParseIntSignedDigits(sign: char, d: string, rest: string, v: nat)
    requires sign == '-' || sign == '+'
    requires |d| >= 1 && AllDigits(d, 10) && v == DigitsValue(d, 10)
    requires rest == [] || !IsDigit(rest[0], 10)
    requires |d| == 1 && d[0] == '0' && |rest| > 0 ==> rest[0] != 'x' && rest[0] != 'X'
    ensures ParseInt([sign] + d + rest) == Some(if sign == '-' then -(v as int) else v as int)
  {
    DecimalWithSuffix(d + rest, d, rest);
    SignBeforeUnsigned(sign, d + rest, v);
    ParseIntRegroup(sign, d, rest);
  }

  /** A sign put before text that reads as `v` gives `v`, negated for `-`. */
  lemma SignBeforeUnsigned(sign: char, u: string, v: nat)
    requires sign == '-' || sign == '+'
    requires ParseUnsigned(u) == Some(v)
    ensures ParseInt([sign] + u) == Some(if sign == '-' then -(v as int) else v as int)
  {
    var s := [sign] + u;
    assert s[0] == sign && s[1..] == u;
    SignedParse(s, sign, v);
  }

  lemma ParseIntRegroup(sign: char, d: string, rest: string)
    ensures ParseInt([sign] + d + rest) == ParseInt([sign] + (d + rest))
  {
    SameParse([sign] + d + rest, [sign] + (d + rest));
  }

  lemma SameParse(x: string, y: string)
    requires x == y
    ensures ParseInt(x) == ParseInt(y)
  {
  }

  /** A sign with no digit right after it is NaN. */
  lemma ParseIntSignWithoutDigits(sign: char, rest: string)
    requires sign == '-' || sign == '+'
    requires rest == [] || !IsDigit(rest[0], 10)
    ensures ParseInt([sign] + rest) == None
  {
    var s := [sign] + rest;
    assert s[0] == sign && s[1..] == rest;
    TrimStartStops(s);
    if |rest| > 0 {
      assert DigitPrefix(rest, 10) == [];
    }
  }

  /** `"+16"` reads as 16. */
  lemma ParseIntPlusExample()
    ensures ParseInt("+16") == Some(16)
  {
    var p := "+16";
    assert !IsWhiteSpace(p[0]) && TrimStart(p) == p;
    assert p[1..] == "16" && DigitPrefix("16", 10) == "16";
    assert DigitsValue("1", 10) == 1;
  }

  /** `"-16px"` reads as -16. */
  lemma ParseIntMinusSuffixExample()
    ensures ParseInt("-16px") == Some(-16)
  {
    var m := "-16px";
    assert !IsWhiteSpace(m[0]) && TrimStart(m) == m;
    assert m[1..] == "16px" && DigitPrefix("px", 10) == [];
    assert DigitPrefix("16px", 10) == "16";
    assert DigitsValue("1", 10) == 1;
  }

  /** `"-"` and `"+x"` are NaN. */
  lemma ParseIntSignNaNExamples()
    ensures ParseInt("-") == None
    ensures ParseInt("+x") == None
  {
    ParseIntSignWithoutDigits('-', "");
    assert ['-'] + "" == "-";
    ParseIntSignWithoutDigits('+', "x");
    assert ['+'] + "x" == "+x";
  }

  /** No digit and no sign after the leading white space is NaN, whatever
      follows. */
  lemma ParseIntNoDigits(s: string)
    requires var t := TrimStart(s); t == [] || (!IsDigit(t[0], 10) && t[0] != '-' && t[0] != '+')
    ensures ParseInt(s) == None
  {
    var t := TrimStart(s);
    if |t| > 0 {
      assert DigitPrefix(t, 10) == [];
    }
  }

  /** `"abc"` and the empty string read as NaN. */
  lemma ParseIntNaNExamples()
    ensures ParseInt("abc") == None
    ensures ParseInt("") == None
  {
    var s := "abc";
    assert !IsWhiteSpace(s[0]);
    TrimStartStops(s);
    ParseIntNoDigits(s);
    ParseIntNoDigits("");
  }

  /** A hexadecimal numeral after `0x` or `0X`, as `parseInt` reads it with no radix. */
  lemma HexNumeral(s: string, h: string)
    requires |s| >= 2 && s[0] == '0' && (s[1] == 'x' || s[1] == 'X') && s[2..] == h
    requires |h| >= 1 && AllDigits(h, 16)
    ensures ParseInt(s) == Some(DigitsValue(h, 16))
  {
    DigitPrefixOfDigits(h, 16);
    assert ParseUnsigned(s) == Some(DigitsValue(h, 16));
    assert IsDigit(s[0], 10);
    DigitNotSpace(s[0]);
    UnsignedIsSigned(s, DigitsValue(h, 16));
    UntrimmedParse(s, DigitsValue(h, 16));
  }

  /** Without a radix argument a `0x` or `0X` prefix reads the hexadecimal
      digits after it in base 16. */
  lemma ParseIntHexPrefix(x: char, h: string)
    requires x == 'x' || x == 'X'
    requires |h| >= 1 && AllDigits(h, 16)
    ensures ParseInt(['0', x] + h) == Some(DigitsValue(h, 16))
  {
    var s := ['0', x] + h;
    assert s[0] == '0' && s[1] == x && s[2..] == h;
    HexNumeral(s, h);
  }

  /** `0x` or `0X`, hexadecimal digits, then anything that is not a
      hexadecimal digit: the unsigned part reads the digits in base 16. */
  lemma HexUnsigned(u: string, x: char, h: string, rest: string, v: nat)
    requires x == 'x' || x == 'X'
    requires |h| >= 1 && AllDigits(h, 16) && v == DigitsValue(h, 16)
    requires rest == [] || !IsDigit(rest[0], 16)
    requires u == ['0', x] + h + rest
    ensures ParseUnsigned(u) == Some(v)
  {
    assert u[0] == '0' && u[1] == x && u[2..] == h + rest;
    DigitPrefixStops(h, rest, 16);
  }

  /** Hexadecimal digits after `0x` or `0X` are read up to the first
      character that is not one, and the rest is dropped. */
  lemma ParseIntHexSuffix(x: char, h: string, rest: string, v: nat)
    requires x == 'x' || x == 'X'
    requires |h| >= 1 && AllDigits(h, 16) && v == DigitsValue(h, 16)
    requires rest == [] || !IsDigit(rest[0], 16)
    ensures ParseInt(['0', x] + h + rest) == Some(v as int)
  {
    var u := ['0', x] + h + rest;
    HexUnsigned(u, x, h, rest, v);
    assert u[0] == '0' && IsDigit(u[0], 10);
    DigitNotSpace(u[0]);
    UnsignedIsSigned(u, v);
    UntrimmedParse(u, v);
  }

  /** A sign before a hexadecimal numeral negates it for `-`, as for decimals. */
  lemma ParseIntSignedHex(sign: char, x: char, h: string, rest: string, v: nat)
    requires sign == '-' || sign == '+'
    requires x == 'x' || x == 'X'
    requires |h| >= 1 && AllDigits(h, 16) && v == DigitsValue(h, 16)
    requires rest == [] || !IsDigit(rest[0], 16)
    ensures ParseInt([sign] + (['0', x] + h + rest)) == Some(if sign == '-' then -(v as int) else v as int)
  {
    HexUnsigned(['0', x] + h + rest, x, h, rest, v);
    SignBeforeUnsigned(sign, ['0', x] + h + rest, v);
  }

  /** `0x` or `0X` not followed by a hexadecimal digit is NaN: the prefix
      commits to base 16 and no digit follows. */
  lemma ParseIntHexWithoutDigits(x: char, rest: string)
    requires x == 'x' || x == 'X'
    requires rest == [] || !IsDigit(rest[0], 16)
    ensures ParseInt(['0', x] + rest) == None
  {
    var u := ['0', x] + rest;
    assert u[0] == '0' && u[1] == x && u[2..] == rest;
    assert IsDigit(u[0], 10);
    DigitNotSpace(u[0]);
    TrimStartStops(u);
    if |rest| > 0 {
      assert DigitPrefix(rest, 16) == [];
    }
  }

  /** `"0x"` and `"0xg"` are NaN. */
  lemma ParseIntHexNaNExamples()
    ensures ParseInt("0x") == None
    ensures ParseInt("0xg") == None
  {
    ParseIntHexWithoutDigits('x', "");
    assert ['0', 'x'] + "" == "0x";
    ParseIntHexWithoutDigits('x', "g");
    assert ['0', 'x'] + "g" == "0xg";
  }

  /** `"0x1Ag"` reads as 26. */
  lemma ParseIntHexSuffixExample()
    ensures ParseInt("0x1Ag") == Some(26)
  {
    assert DigitsValue("1A", 16) == 26 by {
      assert DigitsValue("1", 16) == 1;
    }
    ParseIntHexSuffix('x', "1A", "g", 26);
    assert ['0', 'x'] + "1A" + "g" == "0x1Ag";
  }

  /** `"-0x1A"` reads as -26. */
  lemma ParseIntSignedHexExample()
    ensures ParseInt("-0x1A") == Some(-26)
  {
    assert DigitsValue("1A", 16) == 26 by {
      assert DigitsValue("1", 16) == 1;
    }
    ParseIntSignedHex('-', 'x', "1A", "", 26);
    assert ['-'] + (['0', 'x'] + "1A" + "") == "-0x1A";
  }

  /** `"0x1A"` reads as 26. */
  lemma ParseIntHexExample()
    ensures ParseInt("0x1A") == Some(26)
  {
    var s := "0x1A";
    assert !IsWhiteSpace(s[0]);
    assert TrimStart(s) == s;
    assert s[2..] == "1A";
    assert DigitPrefix("1A", 16) == "1A";
    assert DigitsValue("1", 16) == 1;
  }
}

=== FILE: js_string.dfy ===
/** JavaScript's `String.prototype.split` for a one-character separator,
    together with its inverse `Array.prototype.join`. */
module JsString {

  /** `s.split(sep)`: the maximal pieces of `s` between occurrences of `sep`.
      The empty string splits into one empty piece, as in JavaScript. */
  function Split(s: string, sep: char): (parts: seq<string>)
    ensures |parts| >= 1
    ensures forall i :: 0 <= i < |parts| ==> sep !in parts[i]
    decreases |s|
  {
    if |s| == 0 then [[]]
    else
      var rest := Split(s[1..], sep);
      if s[0] == sep then [[]] + rest
      else [[s[0]] + rest[0]] + rest[1..]
  }

  /** `parts.join(sep)`. */
  function Join(parts: seq<string>, sep: char): string
    requires |parts| >= 1
  {
    if |parts| == 1 then parts[0]
    else parts[0] + [sep] + Join(parts[1..], sep)
  }

  /** Splitting loses nothing: joining the pieces restores the string. */
  lemma {:induction false} JoinSplit(s: string, sep: char)
    ensures Join(Split(s, sep), sep) == s
    decreases |s|
  {
    if |s| > 0 {
      JoinSplit(s[1..], sep);
      var rest := Split(s[1..], sep);
      if s[0] == sep {
        assert Split(s, sep)[1..] == rest;
      } else {
        var parts := Split(s, sep);
        assert parts[0] == [s[0]] + rest[0];
        if |rest| == 1 {
          assert parts == [[s[0]] + rest[0]];
        } else {
          assert parts[1..] == rest[1..];
          assert Join(rest, sep) == rest[0] + [sep] + Join(rest[1..], sep);
        }
        assert s == [s[0]] + s[1..];
      }
    }
  }

  /** A prefix free of the separator is glued onto the first piece. */
  lemma {:induction false} SplitPrefix(a: string, t: string, sep: char)
    requires sep !in a
    ensures Split(a + t, sep) == [a + Split(t, sep)[0]] + Split(t, sep)[1..]
    decreases |a|
  {
    if |a| > 0 {
      assert (a + t)[1..] == a[1..] + t;
      assert (a + t)[0] == a[0];
      SplitPrefix(a[1..], t, sep);
      assert [a[0]] + (a[1..] + Split(t, sep)[0]) == a + Split(t, sep)[0];
    } else {
      var parts := Split(t, sep);
      assert a + t == t;
      assert a + parts[0] == parts[0];
      assert parts == [parts[0]] + parts[1..];
    }
  }

  /** Splitting is the inverse of joining pieces that do not contain the separator. */
  lemma {:induction false} SplitJoin(parts: seq<string>, sep: char)
    requires |parts| >= 1
    requires forall i :: 0 <= i < |parts| ==> sep !in parts[i]
    ensures Split(Join(parts, sep), sep) == parts
    decreases |parts|
  {
    if |parts| == 1 {
      SplitPrefix(parts[0], [], sep);
      assert parts[0] + [] == parts[0];
    } else {
      var tail := parts[1..];
      SplitJoin(tail, sep);
      var t := [sep] + Join(tail, sep);
      assert parts[0] + [sep] + Join(tail, sep) == parts[0] + t;
      SplitPrefix(parts[0], t, sep);
      assert t[1..] == Join(tail, sep);
      assert Split(t, sep) == [[]] + tail;
      assert parts[0] + [] == parts[0];
      assert parts == [parts[0]] + tail;
    }
  }

  /** There is one more piece than there are separators. */
  lemma {:induction false} SplitCount(s: string, sep: char)
    ensures |Split(s, sep)| == multiset(s)[sep] + 1
    decreases |s|
  {
    if |s| > 0 {
      SplitCount(s[1..], sep);
      assert s == [s[0]] + s[1..];
      assert multiset(s) == multiset{s[0]} + multiset(s[1..]);
    }
  }
}

=== FILE: preview.dfy ===
/** `renderPreview`: the bitmap drawn into a fixed 32 by 32 canvas, every
    cell the same square size, the image centred on its short axis. The
    canvas itself is not modelled; the result is the list of `fillRect` calls
    in the order they are made, each with the fill style assigned before it.
    Coordinates are exact rationals. */
module Preview {
  import opened Wrappers
  import opened Bitmaps

  /** `PREVIEW_WIDTH`: the side of the square preview canvas. */
  const PreviewWidth: real := 32.0

  /** The opaque background of light mode. */
  const Backdrop: string := "#dedede"

  /** The cell size and the two centring offsets. */
  datatype Layout = Layout(cell: real, xOffset: int, yOffset: int)

  /** One `fillRect(x, y, width, height)` and the `fillStyle` it paints with;
      a `None` style is the JavaScript `undefined` that a palette index past
      the end of the palette reads. */
  datatype Fill = Fill(x: real, y: real, width: real, height: real, style: Option<string>)

  function MinReal(a: real, b: real): real {
    if a <= b then a else b
  }

  function MaxInt(a: int, b: int): int {
    if a >= b then a else b
  }

  /** The layout of a `w` by `h` bitmap. */
  function LayoutOf(w: nat, h: nat): (l: Layout)
    requires w > 0 && h > 0
    ensures l.cell > 0.0 && l.xOffset >= 0 && l.yOffset >= 0
    ensures w == h ==> l.xOffset == 0 && l.yOffset == 0
    ensures l.xOffset == 0 || l.yOffset == 0
  {
    var wr := w as real;
    var hr := h as real;
    RatioAtLeastOne(wr, hr);
    Layout(
      MinReal(PreviewWidth / wr, PreviewWidth / hr),
      MaxInt((PreviewWidth * (1.0 - wr / hr) / 2.0).Floor, 0),
      MaxInt((PreviewWidth * (1.0 - hr / wr) / 2.0).Floor, 0))
  }

  /** One of two positive ratios is at least one. */
  lemma RatioAtLeastOne(a: real, b: real)
    requires a > 0.0 && b > 0.0
    ensures a <= b ==> b / a >= 1.0
    ensures b <= a ==> a / b >= 1.0
  {
    QuotientAtLeastOne(b, a);
    QuotientAtLeastOne(a, b);
  }

  lemma QuotientAtLeastOne(n: real, d: real)
    requires n > 0.0 && d > 0.0
    ensures d <= n ==> n / d >= 1.0
  {
    var q := n / d;
    assert q * d == n;
  }

  /** `colors[k - 1]` where `colors = palette.slice(1)`: slicing off entry 0
      and then reading `k - 1` cancel out, so index `k` paints `palette[k]`;
      past the end it reads `undefined`. */
  function Swatch(palette: seq<string>, k: nat): (s: Option<string>)
    requires k > 0
    ensures k < |palette| ==> s == Some(palette[k])
    ensures k >= |palette| ==> s == None
  {
    var colors := if |palette| == 0 then [] else palette[1..];
    if k - 1 < |colors| then Some(colors[k - 1]) else None
  }

  /** `i * cell`, written as `i` additions of `cell`, so that reasoning
      about neighbouring cells stays linear (`ScaledIsProduct`). */
  function Scaled(i: nat, cell: real): real {
    if i == 0 then 0.0 else Scaled(i - 1, cell) + cell
  }

  /** The square of cell (`c`, `r`). */
  function CellRect(l: Layout, c: nat, r: nat, style: Option<string>): Fill {
    Fill(l.xOffset as real + Scaled(c, l.cell), l.yOffset as real + Scaled(r, l.cell), l.cell, l.cell, style)
  }

  /** What the loop body does for cell (`c`, `r`): paint a colour for a
      non-zero index, the backdrop for index 0 in light mode, else nothing. */
  function CellFills(b: Bitmap, palette: seq<string>, lightMode: bool, l: Layout, c: nat, r: nat): (fs: seq<Fill>)
    requires b.Valid() && c < b.width && r < b.height
    ensures |fs| <= 1
    ensures |fs| == 1 <==> b.Get(c, r) != 0 || lightMode
    ensures |fs| == 1 ==> fs[0] == CellRect(l, c, r, fs[0].style)
    ensures |fs| == 1 && b.Get(c, r) == 0 ==> fs[0].style == Some(Backdrop)
    ensures |fs| == 1 && b.Get(c, r) != 0 ==> fs[0].style == Swatch(palette, b.Get(c, r))
  {
    var k := b.Get(c, r);
    if k != 0 then [CellRect(l, c, r, Swatch(palette, k))]
    else if lightMode then [CellRect(l, c, r, Some(Backdrop))]
    else []
  }

  /** The fills of every cell the nested loops visit before (`c`, `r`):
      columns outside, rows inside. */
  function Painted(b: Bitmap, palette: seq<string>, lightMode: bool, l: Layout, c: nat, r: nat): seq<Fill>
    requires b.Valid() && c <= b.width && r <= b.height && (c == b.width ==> r == 0)
    decreases c, r
  {
    if r == 0 then
      if c == 0 then [] else Painted(b, palette, lightMode, l, c - 1, b.height)
    else Painted(b, palette, lightMode, l, c, r - 1) + CellFills(b, palette, lightMode, l, c, r - 1)
  }

  /** The whole-canvas fill light mode starts with. */
  function Background(lightMode: bool): seq<Fill> {
    if lightMode then [Fill(0.0, 0.0, PreviewWidth, PreviewWidth, Some(Backdrop))] else []
  }

  /** With a zero dimension the loops visit no cell, so no layout is read. */
  function LayoutOrPlaceholder(b: Bitmap): Layout {
    if b.width > 0 && b.height > 0 then LayoutOf(b.width, b.height) else Layout(0.0, 0, 0)
  }

  /** The fills `renderPreview` makes, as a definition: light mode starts
      with the whole-canvas backdrop, and each cell adds at most one fill. */
  function Render(b: Bitmap, palette: seq<string>, lightMode: bool): (out: seq<Fill>)
    requires b.Valid()
    ensures lightMode ==> |out| >= 1 && out[0] == Fill(0.0, 0.0, PreviewWidth, PreviewWidth, Some(Backdrop))
    ensures |out| <= (if lightMode then 1 else 0) + b.width * b.height
  {
    var l := LayoutOrPlaceholder(b);
    PaintedBound(b, palette, lightMode, l, b.width, 0);
    Background(lightMode) + Painted(b, palette, lightMode, l, b.width, 0)
  }

  /** Each visited cell adds at most one fill. */
  lemma {:induction false} PaintedBound(b: Bitmap, palette: seq<string>, lightMode: bool, l: Layout, c: nat, r: nat)
    requires b.Valid() && c <= b.width && r <= b.height && (c == b.width ==> r == 0)
    ensures |Painted(b, palette, lightMode, l, c, r)| <= c * b.height + r
    decreases c, r
  {
    if r == 0 {
      if c > 0 {
        PaintedBound(b, palette, lightMode, l, c - 1, b.height);
        assert (c - 1) * b.height + b.height == c * b.height;
      }
    } else {
      PaintedBound(b, palette, lightMode, l, c, r - 1);
    }
  }

  /** `renderPreview` as the source writes it: the background, then the
      two nested loops over the cells. */
  method RenderPreview(b: Bitmap, palette: seq<string>, lightMode: bool) returns (fills: seq<Fill>)
    requires b.Valid()
    ensures fills == Render(b, palette, lightMode)
  {
    var l := LayoutOrPlaceholder(b);
    var cells := PaintCells(b, palette, lightMode, l);
    fills := Background(lightMode) + cells;
  }

  /** The nested loops of `renderPreview`, columns outside and rows inside,
      for a layout already computed. */
  method PaintCells(b: Bitmap, palette: seq<string>, lightMode: bool, l: Layout) returns (fills: seq<Fill>)
    requires b.Valid()
    ensures fills == Painted(b, palette, lightMode, l, b.width, 0)
  {
    fills := [];
    var c := 0;
    while c < b.width
      invariant c <= b.width
      invariant fills == Painted(b, palette, lightMode, l, c, 0)
    {
      var r := 0;
      while r < b.height
        invariant r <= b.height
        invariant fills == Painted(b, palette, lightMode, l, c, r)
      {
        var k := b.Get(c, r);
        if k != 0 {
          fills := fills + [CellRect(l, c, r, Swatch(palette, k))];
        } else if lightMode {
          fills := fills + [CellRect(l, c, r, Some(Backdrop))];
        }
        r := r + 1;
      }
      c := c + 1;
    }
  }

  // ---------------------------------------------------------------------
  // Geometry

  /** A fill lies inside the canvas. */
  predicate InCanvas(f: Fill) {
    0.0 <= f.x && f.x + f.width <= PreviewWidth && 0.0 <= f.y && f.y + f.height <= PreviewWidth
  }

  /** Two fills share some interior point. */
  predicate Overlap(f: Fill, g: Fill) {
    f.x < g.x + g.width && g.x < f.x + f.width && f.y < g.y + g.height && g.y < f.y + f.height
  }

  /** Dividing by a larger positive number gives less. */
  lemma DivideByLarger(n: real, d1: real, d2: real)
    requires n >= 0.0 && 0.0 < d1 <= d2
    ensures n / d2 <= n / d1
  {
    assert (n / d1) * d1 == n;
    assert (n / d2) * d2 == n;
  }

  /** The cell size is the ratio of the canvas to the longer side. */
  lemma CellOfLongerSide(w: nat, h: nat)
    requires w > 0 && h > 0
    ensures w <= h ==> LayoutOf(w, h).cell == PreviewWidth / h as real
    ensures h <= w ==> LayoutOf(w, h).cell == PreviewWidth / w as real
  {
    if w <= h {
      DivideByLarger(PreviewWidth, w as real, h as real);
    }
    if h <= w {
      DivideByLarger(PreviewWidth, h as real, w as real);
    }
  }

  /** The scaled image fits the canvas on both axes and fills it exactly on
      its longer side: the scaling is uniform and as large as it can be. */
  lemma {:induction false} LayoutFits(w: nat, h: nat)
    requires w > 0 && h > 0
    ensures var l := LayoutOf(w, h);
      && w as real * l.cell <= PreviewWidth
      && h as real * l.cell <= PreviewWidth
      && (w as real * l.cell == PreviewWidth || h as real * l.cell == PreviewWidth)
  {
    var l := LayoutOf(w, h);
    CellOfLongerSide(w, h);
    var wr := w as real;
    var hr := h as real;
    if w <= h {
      assert hr * l.cell == PreviewWidth;
      assert wr * l.cell <= hr * l.cell;
    } else {
      assert wr * l.cell == PreviewWidth;
      assert hr * l.cell <= wr * l.cell;
    }
  }

  /** Each offset is the floor of half the room the scaled image leaves on
      its axis: the image is centred, rounding towards the origin. */
  lemma {:induction false} LayoutCentres(w: nat, h: nat)
    requires w > 0 && h > 0
    ensures var l := LayoutOf(w, h);
      && l.xOffset == ((PreviewWidth - w as real * l.cell) / 2.0).Floor
      && l.yOffset == ((PreviewWidth - h as real * l.cell) / 2.0).Floor
  {
    var l := LayoutOf(w, h);
    CellOfLongerSide(w, h);
    CentredOffsets(l, w as real, h as real);
  }

  /** `LayoutCentres` for a layout whose offsets are the source's formulas
      and whose cell is the ratio of the canvas to the longer side. */
  lemma CentredOffsets(l: Layout, wr: real, hr: real)
    requires wr > 0.0 && hr > 0.0
    requires wr <= hr ==> l.cell == PreviewWidth / hr
    requires hr <= wr ==> l.cell == PreviewWidth / wr
    requires l.xOffset == MaxInt((PreviewWidth * (1.0 - wr / hr) / 2.0).Floor, 0)
    requires l.yOffset == MaxInt((PreviewWidth * (1.0 - hr / wr) / 2.0).Floor, 0)
    ensures l.xOffset == ((PreviewWidth - wr * l.cell) / 2.0).Floor
    ensures l.yOffset == ((PreviewWidth - hr * l.cell) / 2.0).Floor
  {
    OffsetIsCentring(wr, hr, l.cell);
    OffsetIsCentring(hr, wr, l.cell);
  }

  /** The offset formula on one axis, with `a` the extent on that axis and
      `b` on the other. */
  lemma OffsetIsCentring(a: real, b: real, cell: real)
    requires a > 0.0 && b > 0.0
    requires a <= b ==> cell == PreviewWidth / b
    requires b <= a ==> cell == PreviewWidth / a
    ensures MaxInt((PreviewWidth * (1.0 - a / b) / 2.0).Floor, 0) == ((PreviewWidth - a * cell) / 2.0).Floor
  {
    RatioAtLeastOne(a, b);
    if a <= b {
      assert a * (PreviewWidth / b) == PreviewWidth * (a / b);
      assert PreviewWidth - a * cell == PreviewWidth * (1.0 - a / b);
    } else {
      assert a * cell == PreviewWidth;
      assert (PreviewWidth * (1.0 - a / b) / 2.0).Floor <= 0;
    }
  }

  /** Repeated addition is multiplication. */
  lemma {:induction false} ScaledIsProduct(i: nat, cell: real)
    ensures Scaled(i, cell) == i as real * cell
  {
    if i > 0 {
      ScaledIsProduct(i - 1, cell);
      assert (i - 1) as real * cell + cell == i as real * cell;
    }
  }

  /** On one axis, cell `i` ends where or before cell `j > i` starts. */
  lemma {:induction false} AxisOrdered(cell: real, i: nat, j: nat)
    requires i < j && cell > 0.0
    ensures Scaled(i, cell) + cell <= Scaled(j, cell)
    decreases j
  {
    if i + 1 < j {
      AxisOrdered(cell, i, j - 1);
    }
  }

  /** Cells start at or after the origin of their axis. */
  lemma {:induction false} ScaledNonNegative(i: nat, cell: real)
    requires cell > 0.0
    ensures Scaled(i, cell) >= 0.0
  {
    if i > 0 {
      ScaledNonNegative(i - 1, cell);
    }
  }

  /** On one axis: cell `i` of `n` starts past the origin and ends before
      the canvas edge, given a centring offset of a fitting extent. */
  lemma {:induction false} CellWithinAxis(offset: int, cell: real, n: nat, i: nat)
    requires i < n && cell > 0.0 && offset >= 0
    requires Scaled(n, cell) <= PreviewWidth
    requires offset == ((PreviewWidth - Scaled(n, cell)) / 2.0).Floor
    ensures 0.0 <= offset as real + Scaled(i, cell)
    ensures offset as real + Scaled(i, cell) + cell <= PreviewWidth
  {
    ScaledNonNegative(i, cell);
    if i + 1 < n {
      AxisOrdered(cell, i, n);
    }
  }

  /** What the geometry lemmas establish of the layout of a `w` by `h` bitmap. */
  predicate Fitted(l: Layout, w: nat, h: nat) {
    && l.cell > 0.0 && l.xOffset >= 0 && l.yOffset >= 0
    && Scaled(w, l.cell) <= PreviewWidth
    && Scaled(h, l.cell) <= PreviewWidth
    && l.xOffset == ((PreviewWidth - Scaled(w, l.cell)) / 2.0).Floor
    && l.yOffset == ((PreviewWidth - Scaled(h, l.cell)) / 2.0).Floor
  }

  lemma LayoutIsFitted(w: nat, h: nat)
    requires w > 0 && h > 0
    ensures Fitted(LayoutOf(w, h), w, h)
  {
    LayoutFits(w, h);
    LayoutCentres(w, h);
    FittedByProducts(LayoutOf(w, h), w, h);
  }

  /** `Fitted`, restated with products in place of repeated additions. */
  lemma FittedByProducts(l: Layout, w: nat, h: nat)
    requires l.cell > 0.0 && l.xOffset >= 0 && l.yOffset >= 0
    requires w as real * l.cell <= PreviewWidth && h as real * l.cell <= PreviewWidth
    requires l.xOffset == ((PreviewWidth - w as real * l.cell) / 2.0).Floor
    requires l.yOffset == ((PreviewWidth - h as real * l.cell) / 2.0).Floor
    ensures Fitted(l, w, h)
  {
    ScaledIsProduct(w, l.cell);
    ScaledIsProduct(h, l.cell);
  }

  /** Every cell of the bitmap is drawn inside the canvas. */
  lemma {:induction false} CellInCanvas(l: Layout, w: nat, h: nat, c: nat, r: nat, style: Option<string>)
    requires Fitted(l, w, h) && c < w && r < h
    ensures InCanvas(CellRect(l, c, r, style))
  {
    CellWithinAxis(l.xOffset, l.cell, w, c);
    CellWithinAxis(l.yOffset, l.cell, h, r);
  }

  /** Distinct cells never overlap, so the order of drawing does not matter
      to which cell a point of the canvas belongs. */
  lemma {:induction false} CellsDisjoint(l: Layout, c1: nat, r1: nat, c2: nat, r2: nat, s1: Option<string>, s2: Option<string>)
    requires l.cell > 0.0
    requires c1 != c2 || r1 != r2
    ensures !Overlap(CellRect(l, c1, r1, s1), CellRect(l, c2, r2, s2))
  {
    if c1 < c2 {
      AxisOrdered(l.cell, c1, c2);
    } else if c2 < c1 {
      AxisOrdered(l.cell, c2, c1);
    } else if r1 < r2 {
      AxisOrdered(l.cell, r1, r2);
    } else {
      AxisOrdered(l.cell, r2, r1);
    }
  }

  // ---------------------------------------------------------------------
  // The fills

  /** Cell (`c1`, `r1`) comes before cell (`c`, `r`) in the loops' order. */
  predicate Before(c1: nat, r1: nat, c: nat, r: nat, h: nat) {
    r1 < h && (c1 < c || (c1 == c && r1 < r))
  }

  /** The fills made before (`c`, `r`) are exactly those of the cells visited
      before it. */
  lemma {:induction false} PaintedMembers(b: Bitmap, palette: seq<string>, lightMode: bool, l: Layout, c: nat, r: nat)
    requires b.Valid() && c <= b.width && r <= b.height && (c == b.width ==> r == 0)
    ensures forall f :: f in Painted(b, palette, lightMode, l, c, r) ==>
      exists c1: nat, r1: nat :: Before(c1, r1, c, r, b.height) && c1 < b.width && f in CellFills(b, palette, lightMode, l, c1, r1)
    ensures forall c1: nat, r1: nat, f ::
      Before(c1, r1, c, r, b.height) && c1 < b.width && f in CellFills(b, palette, lightMode, l, c1, r1) ==>
        f in Painted(b, palette, lightMode, l, c, r)
    decreases c, r
  {
    if r == 0 {
      if c > 0 {
        PaintedMembers(b, palette, lightMode, l, c - 1, b.height);
      }
    } else {
      PaintedMembers(b, palette, lightMode, l, c, r - 1);
    }
  }

  /** Products of naturals respect order; used for the loop position. */
  lemma {:induction false} PositionBefore(c1: nat, r1: nat, c: nat, r: nat, h: nat)
    requires Before(c1, r1, c, r, h)
    ensures c1 * h + r1 < c * h + r
  {
    if c1 < c {
      assert (c - c1) * h >= h by {
        assert c - c1 >= 1;
      }
      assert c * h - c1 * h == (c - c1) * h;
    }
  }

  /** The position of cell (`c`, `r`) in the loops' column-major order. */
  function GridIndex(c: nat, r: nat, w: nat, h: nat): (i: nat)
    requires c < w && r < h
    ensures i < w * h
  {
    PositionBefore(c, r, w, 0, h);
    c * h + r
  }

  /** In light mode each visited cell makes exactly one fill. */
  lemma {:induction false} PaintedLength(b: Bitmap, palette: seq<string>, l: Layout, c: nat, r: nat)
    requires b.Valid() && c <= b.width && r <= b.height && (c == b.width ==> r == 0)
    ensures |Painted(b, palette, true, l, c, r)| == c * b.height + r
    decreases c, r
  {
    if r == 0 {
      if c > 0 {
        PaintedLength(b, palette, l, c - 1, b.height);
        assert (c - 1) * b.height + b.height == c * b.height;
      }
    } else {
      PaintedLength(b, palette, l, c, r - 1);
    }
  }

  /** In light mode the fill for cell (`c1`, `r1`) sits at its position in
      the loops' order. */
  lemma {:induction false} PaintedIndex(b: Bitmap, palette: seq<string>, l: Layout, c: nat, r: nat)
    requires b.Valid() && c <= b.width && r <= b.height && (c == b.width ==> r == 0)
    ensures |Painted(b, palette, true, l, c, r)| == c * b.height + r
    ensures forall c1: nat, r1: nat :: Before(c1, r1, c, r, b.height) && c1 < b.width ==>
      c1 * b.height + r1 < |Painted(b, palette, true, l, c, r)| &&
      Painted(b, palette, true, l, c, r)[c1 * b.height + r1] == CellFills(b, palette, true, l, c1, r1)[0]
    decreases c, r
  {
    var h := b.height;
    PaintedLength(b, palette, l, c, r);
    if r == 0 {
      if c > 0 {
        PaintedIndex(b, palette, l, c - 1, h);
        forall c1: nat, r1: nat | Before(c1, r1, c, r, h) && c1 < b.width
          ensures Before(c1, r1, c - 1, h, h)
        {
        }
      }
    } else {
      PaintedIndex(b, palette, l, c, r - 1);
      var q := Painted(b, palette, true, l, c, r - 1);
      var last := CellFills(b, palette, true, l, c, r - 1);
      assert |q| == c * h + r - 1;
      forall c1: nat, r1: nat | Before(c1, r1, c, r, h) && c1 < b.width
        ensures c1 * h + r1 < |q + last| && (q + last)[c1 * h + r1] == CellFills(b, palette, true, l, c1, r1)[0]
      {
        PositionBefore(c1, r1, c, r, h);
        if c1 == c && r1 == r - 1 {
          assert c1 * h + r1 == |q|;
        } else {
          assert Before(c1, r1, c, r - 1, h);
          assert (q + last)[c1 * h + r1] == q[c1 * h + r1];
        }
      }
    }
  }

  /** The style cell (`c`, `r`) is painted with in light mode. */
  function LightStyle(b: Bitmap, palette: seq<string>, c: nat, r: nat): Option<string>
    requires b.Valid() && c < b.width && r < b.height
  {
    if b.Get(c, r) != 0 then Swatch(palette, b.Get(c, r)) else Some(Backdrop)
  }

  /** Everything drawn lies inside the 32 by 32 canvas. */
  lemma RenderInCanvas(b: Bitmap, palette: seq<string>, lightMode: bool)
    requires b.Valid()
    ensures forall f :: f in Render(b, palette, lightMode) ==> InCanvas(f)
  {
    var l := LayoutOrPlaceholder(b);
    PaintedMembers(b, palette, lightMode, l, b.width, 0);
    if b.width > 0 && b.height > 0 {
      LayoutIsFitted(b.width, b.height);
      forall f | f in Painted(b, palette, lightMode, l, b.width, 0)
        ensures InCanvas(f)
      {
        var c1: nat, r1: nat :| Before(c1, r1, b.width, 0, b.height) && c1 < b.width
          && f in CellFills(b, palette, lightMode, l, c1, r1);
        CellInCanvas(l, b.width, b.height, c1, r1, f.style);
      }
    }
  }

  /** Light mode paints the whole canvas with the backdrop, then every cell
      exactly once, in column-major order: a non-zero index in its palette
      colour, index 0 in the backdrop. */
  lemma {:induction false} LightModeCoversEveryCell(b: Bitmap, palette: seq<string>)
    requires b.Valid()
    ensures var out := Render(b, palette, true);
      && |out| == 1 + b.width * b.height
      && out[0] == Fill(0.0, 0.0, PreviewWidth, PreviewWidth, Some(Backdrop))
      && forall c: nat, r: nat :: c < b.width && r < b.height ==>
           out[1 + GridIndex(c, r, b.width, b.height)] == CellRect(LayoutOrPlaceholder(b), c, r, LightStyle(b, palette, c, r))
  {
    var l := LayoutOrPlaceholder(b);
    assert Render(b, palette, true) == Background(true) + Painted(b, palette, true, l, b.width, 0);
    LightFillsInOrder(b, palette, l);
  }

  lemma {:induction false} LightFillsInOrder(b: Bitmap, palette: seq<string>, l: Layout)
    requires b.Valid()
    ensures var out := Background(true) + Painted(b, palette, true, l, b.width, 0);
      && |out| == 1 + b.width * b.height
      && out[0] == Fill(0.0, 0.0, PreviewWidth, PreviewWidth, Some(Backdrop))
      && forall c: nat, r: nat :: c < b.width && r < b.height ==>
           out[1 + GridIndex(c, r, b.width, b.height)] == CellRect(l, c, r, LightStyle(b, palette, c, r))
  {
    var p := Painted(b, palette, true, l, b.width, 0);
    var out := Background(true) + p;
    PaintedIndex(b, palette, l, b.width, 0);
    forall c: nat, r: nat | c < b.width && r < b.height
      ensures out[1 + GridIndex(c, r, b.width, b.height)] == CellRect(l, c, r, LightStyle(b, palette, c, r))
    {
      var i := c * b.height + r;
      assert Before(c, r, b.width, 0, b.height);
      assert i < |p| && p[i] == CellFills(b, palette, true, l, c, r)[0];
      assert out[1 + i] == p[i];
    }
  }

  /** Standard mode draws exactly the cells with a non-zero index, each in
      its palette colour, and nothing else. */
  lemma StandardModeDrawsNonZeroCells(b: Bitmap, palette: seq<string>)
    requires b.Valid()
    ensures var l := LayoutOrPlaceholder(b);
      forall f :: f in Render(b, palette, false) ==>
        exists c: nat, r: nat :: c < b.width && r < b.height && b.Get(c, r) != 0
          && f == CellRect(l, c, r, Swatch(palette, b.Get(c, r)))
    ensures var l := LayoutOrPlaceholder(b);
      forall c: nat, r: nat :: c < b.width && r < b.height && b.Get(c, r) != 0 ==>
        CellRect(l, c, r, Swatch(palette, b.Get(c, r))) in Render(b, palette, false)
  {
    var l := LayoutOrPlaceholder(b);
    PaintedMembers(b, palette, false, l, b.width, 0);
    forall c: nat, r: nat | c < b.width && r < b.height && b.Get(c, r) != 0
      ensures CellRect(l, c, r, Swatch(palette, b.Get(c, r))) in Render(b, palette, false)
    {
      assert Before(c, r, b.width, 0, b.height);
      assert CellRect(l, c, r, Swatch(palette, b.Get(c, r))) in CellFills(b, palette, false, l, c, r);
    }
  }

  /** In standard mode nothing drawn touches the inside of a cell with index
      0: those cells stay transparent. */
  lemma ZeroCellsStayTransparent(b: Bitmap, palette: seq<string>, c: nat, r: nat)
    requires b.Valid() && c < b.width && r < b.height && b.Get(c, r) == 0
    ensures forall f :: f in Render(b, palette, false) ==> !Overlap(f, CellRect(LayoutOrPlaceholder(b), c, r, None))
  {
    var l := LayoutOrPlaceholder(b);
    StandardModeDrawsNonZeroCells(b, palette);
    forall f | f in Render(b, palette, false)
      ensures !Overlap(f, CellRect(l, c, r, None))
    {
      var c1: nat, r1: nat :| c1 < b.width && r1 < b.height && b.Get(c1, r1) != 0
        && f == CellRect(l, c1, r1, Swatch(palette, b.Get(c1, r1)));
      CellsDisjoint(l, c1, r1, c, r, f.style, None);
    }
  }

  /** The worked example: a 16 by 32 bitmap is drawn at its own size,
      shifted 8 pixels right. */
  lemma TallSpriteLayout()
    ensures LayoutOf(16, 32) == Layout(1.0, 8, 0)
  {
    assert (PreviewWidth * (1.0 - 16.0 / 32.0) / 2.0) == 8.0;
    assert (PreviewWidth * (1.0 - 32.0 / 16.0) / 2.0) == -16.0;
  }
}

=== FILE: sprite_field.dfy ===
/** The state of one sprite field: the last text assigned to it and the
    bitmap it shows. Text assigned from outside passes a gate that keeps the
    last good bitmap; a result committed by the full editor does not. */
module SpriteField {
  import opened Wrappers
  import opened Bitmaps
  import FieldOptions

  /** `value` is the field's `value_`; `state` is its bitmap, `None` when unset. */
  datatype Field = Field(value: Option<string>, state: Option<Bitmap>)

  /** A step of the field and whether it asked for the preview to be redrawn. */
  datatype Step = Step(field: Field, redrawn: bool)

  /** A decoding the field accepts: a bitmap with non-zero width and height. */
  predicate Usable(d: Option<Bitmap>) {
    d.Some? && d.value.width != 0 && d.value.height != 0
  }

  /** `parseBitmap`: the decoded bitmap if usable, else the current state. */
  function ParseBitmap(codec: Codec, text: string, state: Option<Bitmap>): (s: Option<Bitmap>)
    ensures Usable(codec.decode(text)) ==> s == codec.decode(text)
    ensures !Usable(codec.decode(text)) ==> s == state
  {
    var bmp := codec.decode(text);
    if Usable(bmp) then bmp else state
  }

  /** `doValueUpdate_(newValue)`; `None` is a null value. */
  function DoValueUpdate(codec: Codec, f: Field, newValue: Option<string>): (u: Step)
    ensures newValue.None? ==> u == Step(f, false)
    ensures newValue.Some? ==> u.redrawn && u.field.value == newValue
  {
    match newValue
    case None => Step(f, false)
    case Some(t) => Step(Field(newValue, ParseBitmap(codec, t, f.state)), true)
  }

  /** The full editor closing with `result`: a non-empty result replaces the
      bitmap with its decoding, whatever that is; `value_` is left alone. */
  function CommitEditorResult(codec: Codec, f: Field, result: Option<string>): (u: Step)
    ensures u.field.value == f.value
    ensures (result.None? || |result.value| == 0) ==> u == Step(f, false)
  {
    if result.Some? && |result.value| > 0
    then Step(f.(state := codec.decode(result.value)), true)
    else Step(f, false)
  }

  /** `getValue()`: the encoding of the bitmap, `None` when there is none. */
  function GetValue(codec: Codec, f: Field): (r: Option<string>)
    ensures r.Some? <==> f.state.Some?
  {
    match f.state
    case None => None
    case Some(b) => Some(codec.encode(b))
  }

  /** The constructor: the Blockly base class assigns `text` first, and a
      blank bitmap of the configured size fills in when no bitmap resulted. */
  function Construct(codec: Codec, text: Option<string>, opts: FieldOptions.Options): (f: Field)
    requires opts.initWidth >= 0 && opts.initHeight >= 0
    ensures f.state.Some?
    ensures opts.initWidth > 0 && opts.initHeight > 0 ==> Usable(f.state)
  {
    var f := DoValueUpdate(codec, Field(None, None), text).field;
    if f.state.None? then f.(state := Some(Blank(opts.initWidth, opts.initHeight))) else f
  }

  // ---------------------------------------------------------------------
  // Properties

  /** The text gate: the state is replaced exactly by a usable decoding and
      is otherwise kept; a null value changes nothing at all. */
  lemma TextUpdateGate(codec: Codec, f: Field, newValue: Option<string>)
    ensures newValue.None? ==> DoValueUpdate(codec, f, newValue).field == f
    ensures newValue.Some? && Usable(codec.decode(newValue.value)) ==>
      DoValueUpdate(codec, f, newValue).field.state == codec.decode(newValue.value)
    ensures newValue.Some? && !Usable(codec.decode(newValue.value)) ==>
      DoValueUpdate(codec, f, newValue).field.state == f.state
  {
  }

  /** Text updates keep the invariant that the field shows a usable bitmap. */
  lemma TextUpdateKeepsUsable(codec: Codec, f: Field, newValue: Option<string>)
    requires Usable(f.state)
    ensures Usable(DoValueUpdate(codec, f, newValue).field.state)
  {
  }

  /** A valid, non-empty bitmap survives the trip through its text. */
  lemma TextRoundTrip(codec: Codec, f: Field, b: Bitmap)
    requires Lawful(codec)
    requires b.Valid() && b.width > 0 && b.height > 0
    ensures DoValueUpdate(codec, f, Some(codec.encode(b))).field.state == Some(b)
  {
  }

  /** Assigning a field its own value changes neither its bitmap nor its value. */
  lemma ReassignOwnValue(codec: Codec, f: Field)
    requires Lawful(codec)
    requires Usable(f.state) && f.state.value.Valid()
    ensures DoValueUpdate(codec, f, GetValue(codec, f)).field.state == f.state
    ensures GetValue(codec, DoValueUpdate(codec, f, GetValue(codec, f)).field) == GetValue(codec, f)
  {
  }

  /** Assigning the same text twice is the same as assigning it once. */
  lemma TextUpdateIdempotent(codec: Codec, f: Field, newValue: Option<string>)
    ensures var once := DoValueUpdate(codec, f, newValue).field;
      DoValueUpdate(codec, once, newValue).field == once
  {
  }

  /** The editor's commit replaces the bitmap with no gate at all. */
  lemma CommitReplacesUnconditionally(codec: Codec, f: Field, result: string)
    requires |result| > 0
    ensures CommitEditorResult(codec, f, Some(result)).field.state == codec.decode(result)
    ensures CommitEditorResult(codec, f, Some(result)).redrawn
  {
  }

  /** A committed bitmap is shown as is, even an empty one. */
  lemma CommitRoundTrip(codec: Codec, f: Field, b: Bitmap)
    requires Lawful(codec)
    requires b.Valid() && |codec.encode(b)| > 0
    ensures CommitEditorResult(codec, f, Some(codec.encode(b))).field.state == Some(b)
  {
  }

  /** The asymmetry between the two paths: a codec that decodes everything to
      an empty bitmap is ignored by assignment but obeyed by a commit. */
  lemma CommitSkipsTheGate()
    ensures var codec := Codec(_ => Some(Bitmap(0, 0, [])), _ => "img");
      var f := Field(None, Some(Blank(1, 1)));
      && DoValueUpdate(codec, f, Some("img")).field.state == Some(Blank(1, 1))
      && CommitEditorResult(codec, f, Some("img")).field.state == Some(Bitmap(0, 0, []))
  {
  }

  /** A new field shows the decoding of its initial text when usable, and a
      blank bitmap of the configured size otherwise. */
  lemma ConstructedState(codec: Codec, text: Option<string>, opts: FieldOptions.Options)
    requires opts.initWidth >= 0 && opts.initHeight >= 0
    ensures text.Some? && Usable(codec.decode(text.value)) ==>
      Construct(codec, text, opts).state == codec.decode(text.value)
    ensures (text.None? || !Usable(codec.decode(text.value))) ==>
      Construct(codec, text, opts).state == Some(Blank(opts.initWidth, opts.initHeight))
  {
  }

  /** The field after a run of text assignments, in order. */
  function AssignAll(codec: Codec, f: Field, values: seq<Option<string>>): Field
    decreases |values|
  {
    if |values| == 0 then f
    else AssignAll(codec, DoValueUpdate(codec, f, values[0]).field, values[1..])
  }

  /** Text assignments keep a usable bitmap usable, however many there are. */
  lemma {:induction false} AssignAllKeepsUsable(codec: Codec, f: Field, values: seq<Option<string>>)
    requires Usable(f.state)
    ensures Usable(AssignAll(codec, f, values).state)
    decreases |values|
  {
    if |values| > 0 {
      TextUpdateKeepsUsable(codec, f, values[0]);
      AssignAllKeepsUsable(codec, DoValueUpdate(codec, f, values[0]).field, values[1..]);
    }
  }

  /** A field built with a positive configured size shows a usable bitmap
      from the start and after any run of text assignments. */
  lemma ConstructedFieldStaysUsable(codec: Codec, text: Option<string>, opts: FieldOptions.Options,
                                    values: seq<Option<string>>)
    requires opts.initWidth > 0 && opts.initHeight > 0
    ensures Usable(AssignAll(codec, Construct(codec, text, opts), values).state)
  {
    AssignAllKeepsUsable(codec, Construct(codec, text, opts), values);
  }
}

=== FILE: wrappers.dfy ===
/** The optional value used throughout the model for JavaScript's `undefined`,
    `null` and `NaN` outcomes. */
module Wrappers {

  datatype Option<+T> = None | Some(value: T) {

    /** The carried value, or `default` when there is none. */
    function GetOr(default: T): T {
      match this
      case Some(v) => v
      case None => default
    }
  }
}
